=== FILE: README.md ===
# Frame preloader and contact form, modelled in Dafny

This project models two pieces of a marketing site for a car maker.

The first is the **frame preloader** of `src/lib/framePreloader.ts`. It loads the numbered frames of
a scroll-driven image sequence: a short eager burst when it is started, then batches of
`batchSize` frames on a timer. It also supports on-demand warming of a window around the
frame on screen, a read-only `getFrame`, and `dispose`.

The second is the **contact form** of `src/components/ContactSection.tsx`. It covers the four-field
record, the `validate` rules with their fixed messages, the e-mail regular expression,
and the `handleChange` / `handleSubmit` state updates.

Modules:

- `FramePreloader` (`frame_preloader.dfy`). The closure state of `createFramePreloader`
  becomes an immutable `Preloader` record, and each public operation becomes a pure step function.
  - A `setTimeout` that is still outstanding becomes the flag `timerPending`. The timer
    firing is the step `Tick`.
  - Every `new Image()` is recorded, in order, in a request log `requests`.
  - Every `onload` firing, which calls `onFrameLoad` when one is given, is recorded in
    `notified`.
  - The three loops of the source (the eager loop of `start`, the batch loop of
    `loadBatch`, the window loop of `warm`) are recursive functions that call `LoadFrame`
    one frame at a time. The contracts of `WarmLoop` and `EagerLoop`, and the lemma
    `BatchLoopEffect` for `BatchLoop`, reduce each loop to the declarative `LoadRange`.
- `FramePreloaderLemmas` (`frame_preloader_lemmas.dfy`) holds the properties:
  - `Valid`, an invariant that every event keeps;
  - write-once slots and at-most-once requests over any history;
  - the exact effect of `start`, a batch and `warm`;
  - inertness after `dispose`;
  - completion of the background fill.
- `JsText` (`js_text.dfy`) holds the ECMAScript string primitives the form relies on:
  - the `\s` class (WhiteSpace plus LineTerminator);
  - `String.prototype.trim`;
  - `length` in UTF-16 code units.
- `ContactForm` (`contact_form.dfy`) holds:
  - the fields, `INITIAL_FORM` and the messages;
  - `EMAIL_REGEX` as a language;
  - `validate`;
  - the two handlers on the `(values, errors, isSubmitted)` state.

Four behaviours of `src/lib/framePreloader.ts` that the model keeps:

- `start` runs its first batch synchronously, right after the eager burst (line 84). The
  timer only carries the batches after it. `StartEffect` and `FiveFrameScenario` state this.
- The batch loop counts every frame it passes toward `batchSize`, including frames that
  `warm` already loaded (lines 59-63). A batch may therefore request fewer than
  `batchSize` images (`LoadBatchStep`).
- `warm` clamps its window after applying the radius, so `warm(i, r)` and
  `warm(clamp(i), r)` can differ: `warm(0, 2)` loads frames 1–2 while `warm(1, 2)` loads
  1–3 (lines 91-97, `WarmClampsAfterRadius`).
- The `onload` handler has no `disposed` check, so `onFrameLoad` is still called for an
  image that finishes loading after `dispose` (lines 47-49). `FrameLoaded` does the same.

## Model

| member | source | states |
|---|---|---|
| `FramePreloader.Clamp` | src/lib/framePreloader.ts:17-18 | The result lies in `[min, max]` when `min <= max`. A value inside the range is returned unchanged. A value below gives `min` and a value above gives `max`. An empty range (`max < min`) gives `min`. |
| `FramePreloader.DefaultConfig` | src/lib/framePreloader.ts:20-27 | With the optional options left out, the preloader uses 12 eager frames and batches of 8. |
| `FramePreloader.Create` | src/lib/framePreloader.ts:28-36 | A new preloader satisfies the invariant `Valid` and keeps the given options. Every slot is null. The cursor is at 1. It is neither started nor disposed, no batch is scheduled, and both logs are empty. |
| `FramePreloader.LoadFrame` | src/lib/framePreloader.ts:38-51 | `loadFrame` works on the clamped index `c`. No slot other than `c` changes. If slot `c` already holds an image, that image is kept. If it is null and the preloader is live, it receives the image for `c`. After dispose nothing changes. An image is created and logged exactly when the preloader is live and the slot was null. The cursor, flags, options and the notification log are untouched. |
| `FramePreloader.MissingSpec` | src/lib/framePreloader.ts:38-42 | The images a run of `loadFrame` calls over `lo..hi` creates are exactly the null slots of the range, each once, in ascending order. |
| `FramePreloader.WarmLoop` | src/lib/framePreloader.ts:94-96 | The `for` loop of `warm` amounts to loading the range `start..end`. |
| `FramePreloader.EagerLoop` | src/lib/framePreloader.ts:77-81 | The eager `while` loop of `start` loads the frames from the cursor up to `eagerLimit`, and leaves the cursor one past the limit (or where it was). |
| `FramePreloader.BatchLoopEffect` | src/lib/framePreloader.ts:58-63 | The batch `while` loop loads the frames from the cursor up to, but not including, `BatchStop`, which is at most `max(0, batchSize - loaded)` frames on and never past `frameCount+1`, and leaves the cursor at `BatchStop`. |
| `FramePreloader.LoadBatch` | src/lib/framePreloader.ts:53-68 | After dispose, `loadBatch` does nothing. Otherwise it passes `min(max(0, batchSize), frames left)` frames from the cursor, creating images for the null ones, and schedules another batch exactly when frames remain. |
| `FramePreloader.Start` | src/lib/framePreloader.ts:71-75 | `start` is a no-op once started or disposed. Otherwise it marks the preloader started. Its full effect is `StartEffect`. |
| `FramePreloader.GetFrame` | src/lib/framePreloader.ts:87-90 | `getFrame` returns an image exactly when one was created for the clamped index, and that image is for that index. It is a function of the state, so nothing changes. |
| `FramePreloader.Warm` | src/lib/framePreloader.ts:91-97 | `warm` loads the window `clamp(index-radius) .. clamp(index+radius)`. |
| `FramePreloader.WarmDefault` | src/lib/framePreloader.ts:91-93 | `warm(index)` with the radius left out loads the window `clamp(index-2) .. clamp(index+2)`. |
| `FramePreloader.Dispose` | src/lib/framePreloader.ts:98-103 | `dispose` sets the flag and cancels any pending batch. It leaves the options, the slots, the cursor, the started flag and both logs alone, so it never calls `onFrameLoad`. |
| `FramePreloader.Tick` | src/lib/framePreloader.ts:65-66 | Without a pending timer there is nothing to fire. The effect of a firing is `TickEffect`. |
| `FramePreloader.FrameLoaded` | src/lib/framePreloader.ts:47-49 | An `onload` calls `onFrameLoad` once, for a frame whose image exists. Nothing else in the state changes. |
| `FramePreloaderLemmas.StartEffect` | src/lib/framePreloader.ts:71-86 | A first `start` on a live preloader loads frames `1..M` at once, where `M = min(frameCount, max(0, min(frameCount, eagerCount)) + max(0, batchSize))`. It leaves the cursor at `M+1` and arms the timer exactly when `M < frameCount`. |
| `FramePreloaderLemmas.StartOrder` | src/lib/framePreloader.ts:77-85 | The images `start` creates come in two ascending runs: first the eager frames, then the synchronous batch. |
| `FramePreloaderLemmas.EagerPhase` | src/lib/framePreloader.ts:77-81 | The eager burst loads exactly `1..min(frameCount, eagerCount)`. A negative `eagerCount` loads nothing. |
| `FramePreloaderLemmas.BatchPhase` | src/lib/framePreloader.ts:83-85 | When frames remain after the eager burst, the batch `start` runs continues from it. Together they load `1..M`. |
| `FramePreloaderLemmas.StartFresh` | src/lib/framePreloader.ts:71-86 | From a new preloader, `start` creates images for exactly frames `1..M`, in order, and arms the timer exactly when frames remain. |
| `FramePreloaderLemmas.StartValid` | src/lib/framePreloader.ts:71-86 | `start` keeps the invariant, and only adds images and log entries. |
| `FramePreloaderLemmas.StartIdempotent` | src/lib/framePreloader.ts:72-74 | A second `start` changes nothing. |
| `FramePreloaderLemmas.LoadBatchStep` | src/lib/framePreloader.ts:53-68 | A batch moves the cursor by at most `max(0, batchSize)` and never past `frameCount+1`. It makes progress whenever `batchSize >= 1` and frames remain. It creates images only for frames it passed, in ascending order. It re-arms exactly when frames remain. |
| `FramePreloaderLemmas.TickEffect` | src/lib/framePreloader.ts:59-67 | A firing timer runs one batch from the cursor and re-arms exactly when frames remain. |
| `FramePreloaderLemmas.TickValid` | src/lib/framePreloader.ts:53-68 | A timer firing keeps the invariant, and only adds images and log entries. |
| `FramePreloaderLemmas.WarmValid` | src/lib/framePreloader.ts:91-97 | `warm` keeps the invariant, and only adds images and log entries. |
| `FramePreloaderLemmas.WarmWindow` | src/lib/framePreloader.ts:91-97 | After `warm`, a frame has an image exactly when it had one before or lies in the clamped window. Slots outside the window are untouched. The new images are the window's null slots in ascending order. The cursor and the timer are untouched. |
| `FramePreloaderLemmas.WarmEmptyWindow` | src/lib/framePreloader.ts:92-94 | When the clamped window is empty (`start > end`), the radius was negative and `warm` changes nothing. |
| `FramePreloaderLemmas.WarmClampsAfterRadius` | src/lib/framePreloader.ts:91-96 | With the default radius, `warm(0)` creates images for frames 1 and 2 only, and `warm(1)` for 1, 2 and 3. Warming an out-of-range index differs from warming its clamp. |
| `FramePreloaderLemmas.FrameLoadedValid` | src/lib/framePreloader.ts:47-49 | `onFrameLoad` notifications keep the invariant: each frame is notified at most once, and only for a created image. |
| `FramePreloaderLemmas.StepValid` | src/lib/framePreloader.ts:70-104 | Every public operation and every callback keeps the invariant, and only adds images and log entries. Only an image's `onload` adds to the `onFrameLoad` log. |
| `FramePreloaderLemmas.RunValid` | src/lib/framePreloader.ts:38-51 | Over any sequence of events the invariant holds. A slot that has an image keeps the same image (write-once), the logs only grow, and the cursor only advances. |
| `FramePreloaderLemmas.AtMostOnce` | src/lib/framePreloader.ts:38-51 | Over any history from `createFramePreloader`, each frame gets at most one `new Image()`, only frames `1..frameCount` get one, and `onFrameLoad` fires at most once per frame and only for created images. |
| `FramePreloaderLemmas.ClampedAccess` | src/lib/framePreloader.ts:87-90 | `getFrame` and `loadFrame` at any index act exactly as at the clamped index. |
| `FramePreloaderLemmas.GetFrameNeverLoaded` | src/lib/framePreloader.ts:87-90 | `getFrame` returns `null` for a frame that was never requested. |
| `FramePreloaderLemmas.DisposeIdempotent` | src/lib/framePreloader.ts:98-103 | A second `dispose` changes nothing. |
| `FramePreloaderLemmas.DisposedStep` | src/lib/framePreloader.ts:98-103 | After `dispose`, no single event creates an image, moves the cursor or schedules a batch. |
| `FramePreloaderLemmas.DisposedRun` | src/lib/framePreloader.ts:38-86 | After `dispose`, no sequence of events creates an image, moves the cursor or schedules a batch. |
| `FramePreloaderLemmas.EventuallyComplete` | src/lib/framePreloader.ts:53-68 | With `batchSize >= 1` and no dispose, `TicksNeeded` timer firings bring the cursor to `frameCount+1`. Every frame then has an image and no batch is pending. `TicksNeeded` counts one firing per `batchSize` frames left, which is `ceil(framesLeft / batchSize)` by `TicksForIsCeil`. |
| `FramePreloaderLemmas.TickProgress` | src/lib/framePreloader.ts:58-67 | Each firing before the end advances the cursor and needs exactly one fewer firing afterwards. |
| `FramePreloaderLemmas.TickWithoutProgress` | src/lib/framePreloader.ts:59-66 | With `batchSize <= 0`, a firing loads nothing and re-arms, so the background fill never ends. |
| `FramePreloaderLemmas.FiveFrameScenario` | src/lib/framePreloader.ts:71-86 | Five frames, two eager, batches of two: `start` creates 1, 2, 3 and 4 and arms the timer. One firing creates 5 and stops. |
| `FramePreloaderLemmas.DefaultScenario` | src/lib/framePreloader.ts:20-27 | With the defaults and 192 frames, `start` creates frames 1–20 (12 eager, one batch of 8). Twenty-two firings finish the fill. |
| `FramePreloaderLemmas.StartCompletes` | src/lib/framePreloader.ts:53-86 | From a fresh `start` with `batchSize >= 1`, the predicted number of firings completes the fill. |
| `JsText.Trim` | src/components/ContactSection.tsx:83 | `trim()` neither starts nor ends with whitespace, and is no longer than its input. |
| `JsText.TrimShape` | src/components/ContactSection.tsx:83 | `trim()` keeps the infix of the input left after removing a blank prefix and a blank suffix. |
| `JsText.TrimEmptyIffBlank` | src/components/ContactSection.tsx:83-85 | `!s.trim()` holds exactly when `s` is all whitespace, including the empty string. |
| `JsText.Utf16Length` | src/components/ContactSection.tsx:95 | `length` counts UTF-16 code units. It lies between the number of characters and twice it, and equals it for text in the Basic Multilingual Plane. |
| `ContactForm.EmailOkIffRegex` | src/components/ContactSection.tsx:22 | The executable test agrees with `/^[^\s@]+@[^\s@]+\.[^\s@]+$/`, read as a language, on every string. |
| `ContactForm.EmailOkSound` | src/components/ContactSection.tsx:22 | Every string the test accepts is matched by the regular expression. |
| `ContactForm.EmailOkComplete` | src/components/ContactSection.tsx:22 | Every string matched by the regular expression is accepted by the test. Any match has its `@` at the first `@`. |
| `ContactForm.EmailFromSegments` | src/components/ContactSection.tsx:22 | Every `local@domain.tld` made of three non-empty segments without whitespace or `@` is matched. The middle segment may contain dots. |
| `ContactForm.Validate` | src/components/ContactSection.tsx:80-100 | There is an error on `name` exactly when it is blank, on `email` exactly when its trim does not match the regular expression, on `model` exactly when it is blank, and on `message` exactly when its trim is shorter than 12 UTF-16 units. Each error carries that rule's fixed message. |
| `ContactForm.RuleFailsMeaning` | src/components/ContactSection.tsx:83-93 | The falsy-trim checks mean "blank", and the regex check means "not in the language". |
| `ContactForm.ValidateIsPerField` | src/components/ContactSection.tsx:80-100 | Whether a field has an error depends on that field's value alone. |
| `ContactForm.BlankFormInvalid` | src/components/ContactSection.tsx:80-100 | A form whose four fields are all whitespace fails every rule. |
| `ContactForm.InitialFormInvalid` | src/components/ContactSection.tsx:15-20 | `INITIAL_FORM` fails all four rules. |
| `ContactForm.HandleChange` | src/components/ContactSection.tsx:61-78 | A change sets the named field and no other. It removes that field's error when one is shown (a non-empty message), so it is then not shown. Other fields' errors, and the submitted flag, are untouched. |
| `ContactForm.HandleSubmit` | src/components/ContactSection.tsx:102-112 | A submit replaces the errors with `validate(values)`. It reports success exactly when there are no errors, and resets the values to `INITIAL_FORM` exactly then. |
| `ContactForm.HandlersKeepErrorsWellFormed` | src/components/ContactSection.tsx:61-112 | Every error shown is one of `validate`'s fixed messages, under both handlers. After a change, the changed field has no error entry. |
| `ContactForm.SubmitSucceedsIff` | src/components/ContactSection.tsx:102-112 | A submit succeeds exactly when name and model are not blank, the trimmed e-mail matches, and the trimmed message is at least 12 units long. |
| `ContactForm.ResubmitAfterSuccessFails` | src/components/ContactSection.tsx:109-111 | Submitting right after a success fails on all four fields, because the form was reset. |
| `ContactForm.SubmitUntouchedFails` | src/components/ContactSection.tsx:25-28 | Submitting the form as first rendered (`INITIAL_FORM`, no errors, no success) fails. Each of the four fields gets its fixed message, and the values stay as they were. |
| `ContactForm.FailedSubmitIsStable` | src/components/ContactSection.tsx:102-112 | Submitting again after a failed submit changes nothing. |
| `ContactForm.ExampleEmailMatches` | src/components/ContactSection.tsx:22 | `alex@example.com` matches the regular expression. |
| `ContactForm.ExampleMessageLongEnough` | src/components/ContactSection.tsx:95 | A 25-character message passes the length rule. |
| `ContactForm.ExampleSubmission` | src/components/ContactSection.tsx:102-112 | A filled-in form (with a padded name) is accepted, with no errors, and the form resets. |

## Left out

- Image loading itself is left out: `image.decoding`, `image.src` and the network fetch are I/O.
  - A created image is represented by the frame index it was created for.
  - `getFrameSource` is taken to be a pure function of that index, so it is not called.
  - The `HTMLImageElement` argument of `onFrameLoad` is dropped. Only the index is recorded.
- Timing is left out.
  - The `window.setTimeout` delay `batchDelayMs` and the browser's timer queue are replaced by the pending flag and an explicit `Tick` event.
  - `clearTimeout` is modelled as clearing that flag.
  - The model does not let a timer fire after `dispose`, because `dispose` clears it.
- JavaScript numbers are modelled as mathematical integers. Fractional indices, `NaN` and `Infinity` are not covered.
- A `frameCount` of 0 is left out. There, `clamp` yields 1 and `frames[0]` is `undefined`, outside the array. Every preloader has `frameCount >= 1`.
- The model does not distinguish an explicit `undefined` option from a missing one (both give the default). `DefaultConfig` is the case where all are missing.
- `FramePreloader.Start`: its own contract states only the no-op case and the started flag. The full effect of a first `start` is stated in `StartEffect`.
- `FramePreloader.Tick`: its own contract states only the case with no pending timer. The effect of a firing is stated in `TickEffect`.
- Strings holding an unpaired UTF-16 surrogate are not modelled. A Dafny `string` holds Unicode scalar values, while a JavaScript string may hold a lone surrogate, which `trim` keeps, `[^\s@]` matches and `length` counts as 1.
- The browser is assumed to fire each image's `onload` at most once. `FrameLoaded` ignores a repeated `onload` for a frame already notified, so `AtMostOnce` rests on that assumption and is not derived from the code.
- `FramePreloader.BatchLoop` has no row of its own. Its effect is stated by `BatchLoopEffect`, which is proved separately to keep each proof small.
- React rendering is left out: the JSX markup, the GSAP reveal animation in `useEffect` (lines 30-59), `event.preventDefault()`, and the timing of state updates. Each handler is modelled as applying its `setValues` / `setErrors` / `setIsSubmitted` updaters to one consistent state.
- `handleChange` is modelled only for the four field names. An input whose `name` is not one of the four fields is not modelled.
- `isSubmitted` (`"success" | null`) is modelled as a boolean.
- The regular-expression engine is left out. `EMAIL_REGEX` is modelled as the language it denotes, and `EmailOk` decides it.
- The rest of the site (hero, globe, other sections and the GSAP setup) is not part of this model.

=== FILE: contact_form.dfy ===
/**
 The contact form of `src/components/ContactSection.tsx`: the field record, the
 validation rules with their fixed messages, and the two event handlers as pure
 transitions on the component's `(values, errors, isSubmitted)` state.
 */
module ContactForm {
  import opened JsText

  datatype Field = Name | Email | Model | Message

  datatype Fields = Fields(name: string, email: string, model: string, message: string)
  {
    function Get(f: Field): string {
      match f
      case Name => name
      case Email => email
      case Model => model
      case Message => message
    }

    /** A copy of the fields with field `f` replaced by `value`. */
    function Set(f: Field, value: string): (r: Fields)
      ensures r.Get(f) == value
      ensures forall g | g != f :: r.Get(g) == Get(g)
    {
      match f
      case Name => this.(name := value)
      case Email => this.(email := value)
      case Model => this.(model := value)
      case Message => this.(message := value)
    }
  }

  /** A partial record from field to message; a field with no key has no error. */
  type Errors = map<Field, string>

  /** `INITIAL_FORM` */
  const InitialForm: Fields := Fields("", "", "", "")

  const NameRequired: string := "Name is required."
  const InvalidEmail: string := "Enter a valid email address."
  const ModelRequired: string := "Preferred model is required."
  const MessageTooShort: string := "Message must be at least 12 characters."
  const MinMessageLength: nat := 12

  /** The message `validate` records for a field. */
  function ErrorText(f: Field): string {
    match f
    case Name => NameRequired
    case Email => InvalidEmail
    case Model => ModelRequired
    case Message => MessageTooShort
  }

  // ---- EMAIL_REGEX = /^[^\s@]+@[^\s@]+\.[^\s@]+$/ ----

  /** One character of the class `[^\s@]`. */
  predicate Atom(c: char) {
    !IsWs(c) && c != '@'
  }

  /** `[^\s@]+` matched against the whole of `x`. */
  predicate Segment(x: string) {
    |x| > 0 && forall i | 0 <= i < |x| :: Atom(x[i])
  }

  /** The regular expression read as a language: some `@` at `at` and some `.` at `dot`
      cut `s` into three non-empty segments. */
  ghost predicate MatchesEmailRegex(s: string) {
    exists at, dot :: SplitsAsEmail(s, at, dot)
  }

  /** `s[..at]`, `s[at+1..dot]` and `s[dot+1..]` are the three segments. */
  predicate SplitsAsEmail(s: string, at: int, dot: int) {
    && 0 < at < dot < |s| - 1
    && s[at] == '@' && s[dot] == '.'
    && Segment(s[..at]) && Segment(s[at + 1..dot]) && Segment(s[dot + 1..])
  }

  /** The first position of `c` in `s`. */
  function IndexOf(s: string, c: char): (r: int)
    ensures -1 <= r < |s|
    ensures r >= 0 ==> s[r] == c && c !in s[..r]
    ensures r == -1 ==> c !in s
    decreases |s|
  {
    if s == [] then -1
    else if s[0] == c then 0
    else
      var i := IndexOf(s[1..], c);
      if i == -1 then -1
      else
        assert s[..i + 1] == [s[0]] + s[1..][..i];
        i + 1
  }

  /** `EMAIL_REGEX.test(s)`, decided by a single split at the first `@`: the local part
      before it cannot contain `@`, and the domain after it must be all `[^\s@]` with a
      `.` neither first nor last. */
  function EmailOk(s: string): bool {
    var at := IndexOf(s, '@');
    && at > 0
    && (forall i | 0 <= i < at :: !IsWs(s[i]))
    && (forall i | at < i < |s| :: Atom(s[i]))
    && at + 2 < |s| - 1
    && '.' in s[at + 2..|s| - 1]
  }

  /** The single-split decision agrees with the regular expression on every string. */
  lemma EmailOkIffRegex(s: string)
    ensures EmailOk(s) <==> MatchesEmailRegex(s)
  {
    if EmailOk(s) {
      EmailOkSound(s);
    }
    if MatchesEmailRegex(s) {
      var a, dot :| SplitsAsEmail(s, a, dot);
      EmailOkComplete(s, a, dot);
    }
  }

  /** What the single split accepts, the regular expression matches. */
  lemma EmailOkSound(s: string)
    requires EmailOk(s)
    ensures MatchesEmailRegex(s)
  {
    var at := IndexOf(s, '@');
    var mid := s[at + 2..|s| - 1];
    var d :| 0 <= d < |mid| && mid[d] == '.';
    var dot := at + 2 + d;
    assert s[dot] == '.';
    assert forall i | 0 <= i < at :: s[..at][i] == s[i] && s[i] in s[..at];
    assert Segment(s[..at]);
    assert Segment(s[at + 1..dot]);
    assert Segment(s[dot + 1..]);
    assert SplitsAsEmail(s, at, dot);
  }

  /** Any split the regular expression finds has its `@` at the first `@`, so the
      single split accepts too. */
  lemma EmailOkComplete(s: string, a: int, dot: int)
    requires SplitsAsEmail(s, a, dot)
    ensures EmailOk(s)
  {
    var at := IndexOf(s, '@');
    assert forall i | 0 <= i < a :: s[i] == s[..a][i];
    assert '@' !in s[..a];
    assert at == a;
    forall i | a < i < |s| ensures Atom(s[i]) {
      if i < dot {
        assert s[i] == s[a + 1..dot][i - a - 1];
      } else if i > dot {
        assert s[i] == s[dot + 1..][i - dot - 1];
      }
    }
    assert s[a + 2..|s| - 1][dot - a - 2] == '.';
  }

  /** Every `local@domain.tld` of three non-empty `[^\s@]` segments is accepted; the
      middle segment may itself contain dots. */
  lemma EmailFromSegments(l: string, a: string, b: string)
    requires Segment(l) && Segment(a) && Segment(b)
    ensures MatchesEmailRegex(l + "@" + a + "." + b)
  {
    var s := l + "@" + a + "." + b;
    var at := |l|;
    var dot := |l| + 1 + |a|;
    assert s[..at] == l;
    assert s[at + 1..dot] == a;
    assert s[dot + 1..] == b;
    assert s[at] == '@' && s[dot] == '.';
    assert SplitsAsEmail(s, at, dot);
  }

  // ---- validate ----

  /** The check `validate` applies to one field. */
  predicate RuleFails(input: Fields, f: Field) {
    match f
    case Name => Trim(input.name) == ""
    case Email => !EmailOk(Trim(input.email))
    case Model => Trim(input.model) == ""
    case Message => Utf16Length(Trim(input.message)) < MinMessageLength
  }

  /** `validate`: one entry per failing rule, each with its fixed message. */
  function Validate(input: Fields): (errors: Errors)
    ensures Name in errors <==> Blank(input.name)
    ensures Email in errors <==> !MatchesEmailRegex(Trim(input.email))
    ensures Model in errors <==> Blank(input.model)
    ensures Message in errors <==> Utf16Length(Trim(input.message)) < MinMessageLength
    ensures forall f | f in errors :: errors[f] == ErrorText(f)
  {
    var m := map f | f in {Name, Email, Model, Message} && RuleFails(input, f) :: ErrorText(f);
    assert Name in m <==> RuleFails(input, Name);
    assert Email in m <==> RuleFails(input, Email);
    assert Model in m <==> RuleFails(input, Model);
    assert Message in m <==> RuleFails(input, Message);
    RuleFailsMeaning(input);
    m
  }

  lemma RuleFailsMeaning(input: Fields)
    ensures RuleFails(input, Name) <==> Blank(input.name)
    ensures RuleFails(input, Email) <==> !MatchesEmailRegex(Trim(input.email))
    ensures RuleFails(input, Model) <==> Blank(input.model)
  {
    TrimEmptyIffBlank(input.name);
    TrimEmptyIffBlank(input.model);
    EmailOkIffRegex(Trim(input.email));
  }

  /** Whether a field has an error depends on that field's value alone. */
  lemma ValidateIsPerField(x: Fields, y: Fields, f: Field)
    requires x.Get(f) == y.Get(f)
    ensures f in Validate(x) <==> f in Validate(y)
  {
  }

  /** A form whose fields are all whitespace fails every rule; the empty form is one. */
  lemma BlankFormInvalid(x: Fields)
    requires Blank(x.name) && Blank(x.email) && Blank(x.model) && Blank(x.message)
    ensures forall f: Field :: f in Validate(x)
  {
    var e := Validate(x);
    TrimEmptyIffBlank(x.email);
    TrimEmptyIffBlank(x.message);
    assert !MatchesEmailRegex(Trim(x.email)) by {
      forall at, dot ensures !SplitsAsEmail(Trim(x.email), at, dot) { }
    }
    assert Utf16Length(Trim(x.message)) == 0;
    assert Name in e && Email in e && Model in e && Message in e;
    forall f: Field ensures f in e {
      match f
      case Name =>
      case Email =>
      case Model =>
      case Message =>
    }
  }

  lemma InitialFormInvalid()
    ensures forall f: Field :: f in Validate(InitialForm)
  {
    BlankFormInvalid(InitialForm);
  }

  // ---- the component's state and handlers ----

  /** `values`, `errors`, and `isSubmitted === "success"`. */
  datatype Form = Form(values: Fields, errors: Errors, submitted: bool)

  const InitialState: Form := Form(InitialForm, map[], false)

  /** The paragraph shown under field `f`: `{errors.f && <p>…</p>}` renders only for a
      non-empty message. */
  predicate Shown(errors: Errors, f: Field) {
    f in errors && errors[f] != ""
  }

  /** `handleChange`: store the new value, and drop that field's error if one is shown. */
  function HandleChange(s: Form, f: Field, value: string): (r: Form)
    ensures r.values.Get(f) == value
    ensures forall g | g != f :: r.values.Get(g) == s.values.Get(g)
    ensures !Shown(r.errors, f)
    ensures forall g | g != f :: g in r.errors <==> g in s.errors
    ensures forall g | g in r.errors :: g in s.errors && r.errors[g] == s.errors[g]
    ensures !Shown(s.errors, f) ==> r.errors == s.errors
    ensures r.submitted == s.submitted
  {
    var values := s.values.Set(f, value);
    var errors := if !Shown(s.errors, f) then s.errors else s.errors - {f};
    Form(values, errors, s.submitted)
  }

  /** `handleSubmit`: the errors become `validate(values)`; on success the form resets. */
  function HandleSubmit(s: Form): (r: Form)
    ensures r.errors == Validate(s.values)
    ensures r.submitted <==> r.errors == map[]
    ensures r.values == if r.submitted then InitialForm else s.values
  {
    var errors := Validate(s.values);
    var success := |errors| == 0;
    Form(if success then InitialForm else s.values, errors, success)
  }

  /** The messages on screen are always the fixed texts of `validate`. */
  ghost predicate ErrorsWellFormed(errors: Errors) {
    forall f | f in errors :: errors[f] == ErrorText(f)
  }

  /** Both handlers keep the errors well formed; then a change removes the changed
      field's entry outright. */
  lemma HandlersKeepErrorsWellFormed(s: Form, f: Field, value: string)
    requires ErrorsWellFormed(s.errors)
    ensures ErrorsWellFormed(HandleChange(s, f, value).errors)
    ensures ErrorsWellFormed(HandleSubmit(s).errors)
    ensures f !in HandleChange(s, f, value).errors
  {
  }

  /** A submit succeeds exactly when the name and model are not blank, the trimmed
      email matches the regular expression, and the trimmed message is at least
      twelve UTF-16 code units long. */
  lemma SubmitSucceedsIff(s: Form)
    ensures HandleSubmit(s).submitted <==>
      && !Blank(s.values.name)
      && MatchesEmailRegex(Trim(s.values.email))
      && !Blank(s.values.model)
      && Utf16Length(Trim(s.values.message)) >= MinMessageLength
  {
    var e := Validate(s.values);
    if e != map[] {
      var f :| f in e;
      assert f in e.Keys;
    }
  }

  /** Submitting again right after a success fails on every field. */
  lemma ResubmitAfterSuccessFails(s: Form)
    ensures HandleSubmit(s).submitted ==>
      var r := HandleSubmit(HandleSubmit(s));
      !r.submitted && forall f: Field :: f in r.errors
  {
    if HandleSubmit(s).submitted {
      BlankFormInvalid(HandleSubmit(s).values);
    }
  }

  /** Submitting the untouched form fails on all four fields with their fixed messages,
      and the values stay as they were. */
  lemma SubmitUntouchedFails()
    ensures var r := HandleSubmit(InitialState);
      && !r.submitted && r.values == InitialForm
      && forall f: Field :: f in r.errors && r.errors[f] == ErrorText(f)
  {
    InitialFormInvalid();
  }

  /** A failed submit is a fixed point: submitting again changes nothing. */
  lemma FailedSubmitIsStable(s: Form)
    requires !HandleSubmit(s).submitted
    ensures HandleSubmit(HandleSubmit(s)) == HandleSubmit(s)
  {
  }

  const ExampleValues: Fields :=
    Fields(" Alex Morgan ", "alex@example.com", "Aurora GT", "Please call me back soon.")

  lemma ExampleEmailMatches()
    ensures MatchesEmailRegex(Trim(ExampleValues.email))
  {
    var e := ExampleValues.email;
    TrimUnbordered(e);
    assert e == "alex" + "@" + "example" + "." + "com";
    EmailFromSegments("alex", "example", "com");
  }

  lemma ExampleMessageLongEnough()
    ensures Utf16Length(Trim(ExampleValues.message)) >= MinMessageLength
  {
    var m := ExampleValues.message;
    TrimUnbordered(m);
  }

  /** A filled-in form is accepted and reset. */
  lemma ExampleSubmission()
    ensures HandleSubmit(Form(ExampleValues, map[], false)) == Form(InitialForm, map[], true)
  {
    var v := ExampleValues;
    assert !Blank(v.name) by { assert !IsWs(v.name[1]); }
    assert !Blank(v.model) by { assert !IsWs(v.model[0]); }
    ExampleEmailMatches();
    ExampleMessageLongEnough();
    SubmitSucceedsIff(Form(v, map[], false));
  }
}

=== FILE: frame_preloader.dfy ===
/**
 The frame preloader of `src/lib/framePreloader.ts` as an immutable state record.

 The closure state of `createFramePreloader` (the `frames` array, the `nextFrame`
 cursor and the `started` / `disposed` flags) becomes the fields of `Preloader`;
 every operation is a pure step function from one state to the next. The browser
 timer is replaced by a `timerPending` flag and an explicit `Tick` step, and each
 `new Image()` the code constructs is recorded, in issue order, in a request log.
 */
module FramePreloader {

  function Min(a: int, b: int): int { if a <= b then a else b }
  function Max(a: int, b: int): int { if a >= b then a else b }

  /** The index clamp of the preloader: `value` pulled into `lo..hi`, where an empty
      range yields its lower bound. */
  function Clamp(value: int, lo: int, hi: int): (r: int)
    ensures lo <= hi ==> lo <= r <= hi
    ensures lo <= value <= hi ==> r == value
    ensures value < lo ==> r == lo
    ensures lo <= hi < value ==> r == hi
    ensures hi < lo ==> r == lo
  {
    Max(lo, Min(hi, value))
  }

  /** Construction options. `getFrameSource`, `batchDelayMs` and `onFrameLoad` carry no
      decision of the preloader and are not fields (see `Slot` and `FrameLoaded`). */
  datatype Config = Config(frameCount: int, eagerCount: int, batchSize: int)

  const DefaultEagerCount: int := 12
  const DefaultBatchSize: int := 8
  const DefaultRadius: int := 2

  /** The options object with every optional field left out. */
  function DefaultConfig(frameCount: int): (c: Config)
    ensures c.frameCount == frameCount && c.eagerCount == 12 && c.batchSize == 8
  {
    Config(frameCount, DefaultEagerCount, DefaultBatchSize)
  }

  /** One element of `frames`: `null`, or the image element created for frame `frame`,
      whose `src` is `getFrameSource(frame)`. Since `getFrameSource` is a pure function
      of the index, the index stands for the source. */
  datatype Slot = Empty | Image(frame: int)

  datatype Preloader = Preloader(
    cfg: Config,
    frames: seq<Slot>,
    nextFrame: int,
    started: bool,
    disposed: bool,
    /** a `setTimeout(loadBatch, …)` is scheduled and not yet fired or cleared */
    timerPending: bool,
    /** the frame index of every `new Image()`, in the order they were created */
    requests: seq<int>,
    /** the frame index of every `onFrameLoad` call, in the order they were made */
    notified: seq<int>)

  /** The shape the closure state always has: one slot per frame and a cursor in `1..frameCount+1`. */
  predicate WellFormed(p: Preloader) {
    && p.cfg.frameCount >= 1
    && |p.frames| == p.cfg.frameCount
    && 1 <= p.nextFrame <= p.cfg.frameCount + 1
  }

  /** Frame `k` (1-based) has a non-null slot. */
  predicate Requested(frames: seq<Slot>, k: int) {
    1 <= k <= |frames| && frames[k - 1].Image?
  }

  predicate Increasing(s: seq<int>) {
    forall i, j | 0 <= i < j < |s| :: s[i] < s[j]
  }

  predicate NoDup<T(==)>(s: seq<T>) {
    forall i, j | 0 <= i < j < |s| :: s[i] != s[j]
  }

  /** The invariant every reachable state keeps. */
  ghost predicate Valid(p: Preloader) {
    && WellFormed(p)
    // a non-null slot holds the image created for its own index
    && (forall j | 0 <= j < |p.frames| :: p.frames[j] == Empty || p.frames[j] == Image(j + 1))
    // every frame the cursor has passed has been requested
    && (forall k | 1 <= k < p.nextFrame :: Requested(p.frames, k))
    && (!p.started ==> p.nextFrame == 1)
    && (p.timerPending ==> p.started && !p.disposed)
    && (p.started && !p.disposed ==> (p.timerPending <==> p.nextFrame <= p.cfg.frameCount))
    // the request log is exactly the set of non-null slots, each once
    && NoDup(p.requests)
    && (forall k :: k in p.requests <==> Requested(p.frames, k))
    && NoDup(p.notified)
    && (forall k :: k in p.notified ==> k in p.requests)
  }

  /** The indices in `lo..hi` whose slot is still null, in ascending order. */
  function Missing(frames: seq<Slot>, lo: int, hi: int): seq<int>
    requires 1 <= lo && hi <= |frames|
    decreases hi - lo
  {
    if lo > hi then []
    else (if frames[lo - 1] == Empty then [lo] else []) + Missing(frames, lo + 1, hi)
  }

  /** `Missing` lists exactly the null slots of the range, each once, ascending. */
  lemma {:induction false} MissingSpec(frames: seq<Slot>, lo: int, hi: int)
    requires 1 <= lo && hi <= |frames|
    ensures forall k :: k in Missing(frames, lo, hi) <==> lo <= k <= hi && !Requested(frames, k)
    ensures Increasing(Missing(frames, lo, hi))
    decreases hi - lo
  {
    if lo <= hi {
      MissingSpec(frames, lo + 1, hi);
      var head := if frames[lo - 1] == Empty then [lo] else [];
      var rest := Missing(frames, lo + 1, hi);
      assert Missing(frames, lo, hi) == head + rest;
      forall k
        ensures k in head + rest <==> lo <= k <= hi && !Requested(frames, k)
      {
        assert k in head + rest <==> k in head || k in rest;
      }
      forall i | 0 <= i < |rest|
        ensures lo < rest[i]
      {
        assert rest[i] in rest;
      }
    }
  }

  /** The slots after every null slot in `lo..hi` received the image for its index. */
  function Fill(frames: seq<Slot>, lo: int, hi: int): seq<Slot> {
    seq(|frames|, j requires 0 <= j < |frames| =>
      if lo <= j + 1 <= hi && frames[j] == Empty then Image(j + 1) else frames[j])
  }

  /** What calling `loadFrame(k)` for `k = lo, lo+1, …, hi` amounts to. */
  function LoadRange(p: Preloader, lo: int, hi: int): Preloader
    requires 1 <= lo && hi <= |p.frames|
  {
    if p.disposed then p
    else p.(frames := Fill(p.frames, lo, hi), requests := p.requests + Missing(p.frames, lo, hi))
  }

  /** `createFramePreloader`: every slot null, cursor at 1, nothing scheduled. */
  function Create(cfg: Config): (p: Preloader)
    requires cfg.frameCount >= 1
    ensures Valid(p)
    ensures forall k :: !Requested(p.frames, k)
    ensures p.cfg == cfg && p.nextFrame == 1
    ensures !p.started && !p.disposed && !p.timerPending
    ensures p.requests == [] && p.notified == []
  {
    Preloader(cfg, seq(cfg.frameCount, _ => Empty), 1, false, false, false, [], [])
  }

  /** `loadFrame`: clamp the index, then create the image unless disposed or already present. */
  function LoadFrame(p: Preloader, index: int): (r: Preloader)
    requires WellFormed(p)
    ensures var c := Clamp(index, 1, p.cfg.frameCount);
      && WellFormed(r) && r.cfg == p.cfg
      && (!p.disposed && p.frames[c - 1] == Empty ==> r.frames[c - 1] == Image(c))
      && (p.disposed ==> r.frames == p.frames)
      && (p.frames[c - 1].Image? ==> r.frames[c - 1] == p.frames[c - 1])
      && r.frames == p.frames[c - 1 := r.frames[c - 1]]
      && (!p.disposed ==> Requested(r.frames, c))
      && r.requests == p.requests + (if p.disposed || Requested(p.frames, c) then [] else [c])
      && r.nextFrame == p.nextFrame && r.started == p.started && r.disposed == p.disposed
      && r.timerPending == p.timerPending && r.notified == p.notified
  {
    var frameIndex := Clamp(index, 1, p.cfg.frameCount);
    if p.disposed || p.frames[frameIndex - 1].Image? then p
    else p.(frames := p.frames[frameIndex - 1 := Image(frameIndex)],
            requests := p.requests + [frameIndex])
  }

  /** The window loop of `warm`: `loadFrame` on each index from `i` up to `end`. */
  function WarmLoop(p: Preloader, i: int, end: int): (r: Preloader)
    requires WellFormed(p) && 1 <= i && end <= p.cfg.frameCount
    ensures r == LoadRange(p, i, end)
    decreases end - i
  {
    if i > end then p
    else
      var q := LoadFrame(p, i);
      LoadRangeStep(p, i, end);
      WarmLoop(q, i + 1, end)
  }

  /** The eager loop of `start`: load the frame at the cursor and advance it, until the
      cursor passes `limit`. */
  function EagerLoop(p: Preloader, limit: int): (r: Preloader)
    requires WellFormed(p) && limit <= p.cfg.frameCount
    ensures r == LoadRange(p, p.nextFrame, limit).(nextFrame := Max(p.nextFrame, limit + 1))
    decreases limit - p.nextFrame
  {
    if p.nextFrame <= limit then
      var q := LoadFrame(p, p.nextFrame).(nextFrame := p.nextFrame + 1);
      LoadRangeStep(p, p.nextFrame, limit);
      EagerLoop(q, limit)
    else p
  }

  /** The frame the batch loop stops before, having already loaded `loaded` frames. */
  function BatchStop(p: Preloader, loaded: int): int {
    Min(p.cfg.frameCount + 1, p.nextFrame + Max(p.cfg.batchSize - loaded, 0))
  }

  /** The batch loop of `loadBatch`: load the frame at the cursor and advance it while
      frames remain and fewer than `batchSize` have been counted; `BatchLoopEffect` says
      what it loads. */
  function BatchLoop(p: Preloader, loaded: int): (r: Preloader)
    requires WellFormed(p)
    ensures WellFormed(r) && r.cfg == p.cfg
    decreases p.cfg.frameCount + 1 - p.nextFrame
  {
    if p.nextFrame <= p.cfg.frameCount && loaded < p.cfg.batchSize then
      BatchLoop(LoadFrame(p, p.nextFrame).(nextFrame := p.nextFrame + 1), loaded + 1)
    else
      p
  }

  /** The batch loop loads the frames from the cursor up to `BatchStop` and leaves the
      cursor there. */
  lemma {:induction false} BatchLoopEffect(p: Preloader, loaded: int)
    requires WellFormed(p)
    ensures BatchLoop(p, loaded)
      == LoadRange(p, p.nextFrame, BatchStop(p, loaded) - 1).(nextFrame := BatchStop(p, loaded))
    decreases p.cfg.frameCount + 1 - p.nextFrame
  {
    if p.nextFrame <= p.cfg.frameCount && loaded < p.cfg.batchSize {
      var q := LoadFrame(p, p.nextFrame).(nextFrame := p.nextFrame + 1);
      var r := BatchLoop(q, loaded + 1);
      assert BatchLoop(p, loaded) == r;
      BatchLoopEffect(q, loaded + 1);
      BatchLoopStep(p, loaded);
      SameState(BatchLoop(p, loaded), r,
        LoadRange(q, q.nextFrame, BatchStop(q, loaded + 1) - 1).(nextFrame := BatchStop(q, loaded + 1)),
        LoadRange(p, p.nextFrame, BatchStop(p, loaded) - 1).(nextFrame := BatchStop(p, loaded)));
    } else {
      assert BatchStop(p, loaded) == p.nextFrame;
      LoadRangeEmpty(p, p.nextFrame, p.nextFrame - 1);
    }
  }

  /** `loadBatch`: up to `batchSize` frames from the cursor, then reschedule while frames remain. */
  function LoadBatch(p: Preloader): (r: Preloader)
    requires WellFormed(p)
    ensures p.disposed ==> r == p
    ensures !p.disposed ==>
      var stop := Min(p.cfg.frameCount + 1, p.nextFrame + Max(p.cfg.batchSize, 0));
      r == LoadRange(p, p.nextFrame, stop - 1).(nextFrame := stop,
                                               timerPending := stop <= p.cfg.frameCount)
  {
    if p.disposed then p
    else
      BatchLoopEffect(p, 0);
      var q := BatchLoop(p, 0);
      q.(timerPending := q.nextFrame <= q.cfg.frameCount)
  }

  /** `start`: a no-op once started or disposed; otherwise the eager burst, then one batch at once. */
  function Start(p: Preloader): (r: Preloader)
    requires WellFormed(p)
    ensures WellFormed(r) && r.cfg == p.cfg
    ensures p.started || p.disposed ==> r == p
    ensures r.started || p.disposed
  {
    if p.started || p.disposed then p
    else
      var q := p.(started := true);
      var eagerLimit := Min(p.cfg.frameCount, p.cfg.eagerCount);
      var q' := EagerLoop(q, eagerLimit);
      if q'.nextFrame <= p.cfg.frameCount then LoadBatch(q') else q'
  }

  /** `getFrame`: the slot at the clamped index; it never loads anything. */
  function GetFrame(p: Preloader, index: int): (r: Slot)
    requires Valid(p)
    ensures r != Empty <==> Clamp(index, 1, p.cfg.frameCount) in p.requests
    ensures r != Empty ==> r == Image(Clamp(index, 1, p.cfg.frameCount))
  {
    p.frames[Clamp(index, 1, p.cfg.frameCount) - 1]
  }

  /** `warm`: load every frame of the clamped window `index-radius .. index+radius`.
      The caller may leave out `radius`, which then is `DefaultRadius`. */
  function Warm(p: Preloader, index: int, radius: int): (r: Preloader)
    requires WellFormed(p)
    ensures var lo := Clamp(index - radius, 1, p.cfg.frameCount);
      var hi := Clamp(index + radius, 1, p.cfg.frameCount);
      r == LoadRange(p, lo, hi)
  {
    var start := Clamp(index - radius, 1, p.cfg.frameCount);
    var end := Clamp(index + radius, 1, p.cfg.frameCount);
    WarmLoop(p, start, end)
  }

  /** `warm(index)` with the radius left out: the window of `DefaultRadius` frames on
      either side of `index`, clamped. */
  function WarmDefault(p: Preloader, index: int): (r: Preloader)
    requires WellFormed(p)
    ensures var lo := Clamp(index - 2, 1, p.cfg.frameCount);
      var hi := Clamp(index + 2, 1, p.cfg.frameCount);
      r == LoadRange(p, lo, hi)
  {
    Warm(p, index, DefaultRadius)
  }

  /** `dispose`: set the flag and clear any scheduled batch. */
  function Dispose(p: Preloader): (r: Preloader)
    ensures r.disposed && !r.timerPending
    ensures r.frames == p.frames && r.nextFrame == p.nextFrame && r.requests == p.requests
    ensures r.cfg == p.cfg && r.started == p.started && r.notified == p.notified
  {
    p.(disposed := true, timerPending := false)
  }

  /** The scheduled `setTimeout(loadBatch, batchDelayMs)` fires; without one, nothing happens. */
  function Tick(p: Preloader): (r: Preloader)
    requires WellFormed(p)
    ensures !p.timerPending ==> r == p
  {
    if !p.timerPending then p
    else LoadBatch(p.(timerPending := false))
  }

  /** The `onload` of the image created for frame `frame` fires and calls `onFrameLoad`.
      An image loads at most once, and only an image that was created can load. */
  function FrameLoaded(p: Preloader, frame: int): (r: Preloader)
    ensures r.notified == p.notified
      + (if Requested(p.frames, frame) && frame !in p.notified then [frame] else [])
    ensures r.(notified := p.notified) == p
  {
    if Requested(p.frames, frame) && frame !in p.notified then p.(notified := p.notified + [frame])
    else p
  }

  /** Everything that can happen to a preloader. `getFrame` is a function of the state
      and not an event. */
  datatype Event =
    | StartCall
    | WarmCall(index: int, radius: int)
    | DisposeCall
    | TimerFired
    | ImageLoaded(frame: int)

  function Step(p: Preloader, e: Event): (r: Preloader)
    requires WellFormed(p)
    ensures WellFormed(r) && r.cfg == p.cfg
  {
    match e
    case StartCall => Start(p)
    case WarmCall(i, r) => Warm(p, i, r)
    case DisposeCall => Dispose(p)
    case TimerFired => Tick(p)
    case ImageLoaded(k) => FrameLoaded(p, k)
  }

  /** The state after the events `es`, in order. */
  function Run(p: Preloader, es: seq<Event>): (r: Preloader)
    requires WellFormed(p)
    ensures WellFormed(r) && r.cfg == p.cfg
    decreases |es|
  {
    if es == [] then p else Run(Step(p, es[0]), es[1..])
  }

  /** `n` timer firings in a row. */
  function Ticks(p: Preloader, n: nat): (r: Preloader)
    requires WellFormed(p)
    ensures WellFormed(r) && r.cfg == p.cfg
    decreases n
  {
    if n == 0 then p else Ticks(Tick(p), n - 1)
  }

  // ---- facts the loop contracts rest on ----

  lemma {:induction false} MissingAgree(f: seq<Slot>, g: seq<Slot>, lo: int, hi: int)
    requires 1 <= lo && hi <= |f| == |g|
    requires forall j | lo - 1 <= j < hi :: f[j] == Empty <==> g[j] == Empty
    ensures Missing(f, lo, hi) == Missing(g, lo, hi)
    decreases hi - lo
  {
    if lo <= hi {
      MissingAgree(f, g, lo + 1, hi);
    }
  }

  lemma BatchLoopStep(p: Preloader, loaded: int)
    requires WellFormed(p) && p.nextFrame <= p.cfg.frameCount && loaded < p.cfg.batchSize
    ensures var q := LoadFrame(p, p.nextFrame).(nextFrame := p.nextFrame + 1);
      var stop := BatchStop(p, loaded);
      && WellFormed(q)
      && BatchStop(q, loaded + 1) == stop
      && LoadRange(q, q.nextFrame, stop - 1).(nextFrame := stop)
         == LoadRange(p, p.nextFrame, stop - 1).(nextFrame := stop)
  {
    var stop := BatchStop(p, loaded);
    var q0 := LoadFrame(p, p.nextFrame);
    var q := q0.(nextFrame := p.nextFrame + 1);
    LoadRangeStep(p, p.nextFrame, stop - 1);
    assert LoadRange(q, q.nextFrame, stop - 1) == LoadRange(q0, q.nextFrame, stop - 1).(nextFrame := q.nextFrame);
  }

  /** Equality of states, chained in a lemma of its own: proved in an empty context, this
      step stays cheap for the solver where `BatchLoopEffect` uses it. */
  lemma SameState(a: Preloader, b: Preloader, c: Preloader, d: Preloader)
    requires a == b && b == c && c == d
    ensures a == d
  {
  }

  lemma LoadRangeEmpty(p: Preloader, lo: int, hi: int)
    requires 1 <= lo && hi <= |p.frames| && hi < lo
    ensures LoadRange(p, lo, hi) == p
  {
    assert Fill(p.frames, lo, hi) == p.frames;
  }

  /** The slots after `loadFrame(lo)` on a live preloader. */
  function FillOne(f: seq<Slot>, lo: int): seq<Slot>
    requires 1 <= lo <= |f|
  {
    if f[lo - 1] == Empty then f[lo - 1 := Image(lo)] else f
  }

  lemma FillStep(f: seq<Slot>, lo: int, hi: int)
    requires 1 <= lo <= hi <= |f|
    ensures Fill(FillOne(f, lo), lo + 1, hi) == Fill(f, lo, hi)
  {
    var g := FillOne(f, lo);
    forall j | 0 <= j < |f|
      ensures Fill(g, lo + 1, hi)[j] == Fill(f, lo, hi)[j]
    {
    }
  }

  lemma MissingStep(f: seq<Slot>, lo: int, hi: int)
    requires 1 <= lo <= hi <= |f|
    ensures (if f[lo - 1] == Empty then [lo] else []) + Missing(FillOne(f, lo), lo + 1, hi)
         == Missing(f, lo, hi)
  {
    var g := FillOne(f, lo);
    assert forall j | lo <= j < hi :: g[j] == f[j];
    MissingAgree(g, f, lo + 1, hi);
    assert Missing(f, lo, hi) == (if f[lo - 1] == Empty then [lo] else []) + Missing(f, lo + 1, hi);
  }

  /** `loadFrame(lo)` on a live preloader, for an index already in range. */
  lemma LoadFrameLive(p: Preloader, lo: int)
    requires WellFormed(p) && !p.disposed && 1 <= lo <= p.cfg.frameCount
    ensures LoadFrame(p, lo)
      == p.(frames := FillOne(p.frames, lo),
            requests := p.requests + (if p.frames[lo - 1] == Empty then [lo] else []))
  {
    assert Clamp(lo, 1, p.cfg.frameCount) == lo;
  }

  /** One `loadFrame(lo)` followed by `lo+1 .. hi` is the whole range `lo .. hi`. */
  lemma LoadRangeStep(p: Preloader, lo: int, hi: int)
    requires WellFormed(p) && 1 <= lo <= hi <= p.cfg.frameCount
    ensures var q := LoadFrame(p, lo);
      LoadRange(q, lo + 1, hi) == LoadRange(p, lo, hi)
  {
    if !p.disposed {
      var head := if p.frames[lo - 1] == Empty then [lo] else [];
      var g := FillOne(p.frames, lo);
      var tail := Missing(g, lo + 1, hi);
      LoadFrameLive(p, lo);
      FillStep(p.frames, lo, hi);
      MissingStep(p.frames, lo, hi);
      assert (p.requests + head) + tail == p.requests + (head + tail);
      calc {
        LoadRange(LoadFrame(p, lo), lo + 1, hi);
        LoadRange(p.(frames := g, requests := p.requests + head), lo + 1, hi);
        p.(frames := Fill(g, lo + 1, hi), requests := (p.requests + head) + tail);
        p.(frames := Fill(p.frames, lo, hi), requests := p.requests + Missing(p.frames, lo, hi));
        LoadRange(p, lo, hi);
      }
    }
  }
}

=== FILE: frame_preloader_lemmas.dfy ===
/**
 Properties of the frame preloader: the invariant every operation keeps, write-once
 slots and at-most-once requests over any interleaving of events, the effect of
 `start`, `loadBatch` and `warm`, inertness after `dispose`, and completion of the
 background fill.
 */
module FramePreloaderLemmas {
  import opened FramePreloader

  /** `q` is a later state of `p`: filled slots keep their image, logs only grow,
      the cursor only advances and the flags are only ever set. */
  ghost predicate Grows(p: Preloader, q: Preloader) {
    && q.cfg == p.cfg
    && |q.frames| == |p.frames|
    && (forall j | 0 <= j < |p.frames| && p.frames[j].Image? :: q.frames[j] == p.frames[j])
    && p.requests <= q.requests
    && p.notified <= q.notified
    && p.nextFrame <= q.nextFrame
    && (p.started ==> q.started)
    && (p.disposed ==> q.disposed)
  }

  /** Frames `lo..hi`, ascending. */
  function Range(lo: int, hi: int): (ks: seq<int>)
    ensures |ks| == if lo <= hi then hi - lo + 1 else 0
    ensures forall i | 0 <= i < |ks| :: ks[i] == lo + i
    decreases hi - lo
  {
    if lo > hi then [] else [lo] + Range(lo + 1, hi)
  }

  // ---- the range effect every loop reduces to ----

  lemma FillRequested(f: seq<Slot>, lo: int, hi: int)
    ensures forall k :: Requested(Fill(f, lo, hi), k) <==> Requested(f, k) || (1 <= k <= |f| && lo <= k <= hi)
  {
    forall k ensures Requested(Fill(f, lo, hi), k) <==> Requested(f, k) || (1 <= k <= |f| && lo <= k <= hi) {
      if 1 <= k <= |f| {
        assert Fill(f, lo, hi)[k - 1] == if lo <= k <= hi && f[k - 1] == Empty then Image(k) else f[k - 1];
      }
    }
  }

  lemma NoDupAppend(a: seq<int>, b: seq<int>)
    requires NoDup(a) && Increasing(b)
    requires forall x | x in b :: x !in a
    ensures NoDup(a + b)
  {
    forall i, j | 0 <= i < j < |a + b| ensures (a + b)[i] != (a + b)[j] {
      if j >= |a| && i < |a| {
        assert (a + b)[j] in b;
      }
    }
  }

  /** Loading a range keeps the invariant, only fills slots, and fills exactly the range. */
  lemma LoadRangeValid(p: Preloader, lo: int, hi: int)
    requires Valid(p) && 1 <= lo && hi <= p.cfg.frameCount
    ensures var r := LoadRange(p, lo, hi);
      && Valid(r)
      && Grows(p, r)
      && r.nextFrame == p.nextFrame && r.started == p.started && r.disposed == p.disposed
      && r.timerPending == p.timerPending && r.notified == p.notified
      && (forall k :: Requested(r.frames, k) <==> Requested(p.frames, k) || (!p.disposed && 1 <= k && lo <= k <= hi && k <= p.cfg.frameCount))
  {
    if !p.disposed {
      var r := LoadRange(p, lo, hi);
      var m := Missing(p.frames, lo, hi);
      MissingSpec(p.frames, lo, hi);
      FillRequested(p.frames, lo, hi);
      NoDupAppend(p.requests, m);
      assert forall k :: k in r.requests <==> k in p.requests || k in m;
      forall j | 0 <= j < |r.frames| ensures r.frames[j] == Empty || r.frames[j] == Image(j + 1) {
        assert p.frames[j] == Empty || p.frames[j] == Image(j + 1);
      }
    }
  }

  /** Loading `lo .. next-1` and moving the cursor to `next` (as `start` and a batch do)
      keeps the invariant, provided the range begins at or before the cursor. */
  lemma AdvanceValid(p: Preloader, lo: int, next: int)
    requires Valid(p) && !p.disposed && 1 <= lo <= p.nextFrame <= next <= p.cfg.frameCount + 1
    ensures var r := LoadRange(p, lo, next - 1).(started := true, nextFrame := next,
                                                  timerPending := next <= p.cfg.frameCount);
      Valid(r) && Grows(p, r)
  {
    var q := LoadRange(p, lo, next - 1);
    LoadRangeValid(p, lo, next - 1);
    var r := q.(started := true, nextFrame := next, timerPending := next <= p.cfg.frameCount);
    assert forall k | 1 <= k < next :: Requested(r.frames, k) by {
      assert forall k | 1 <= k < p.nextFrame :: Requested(p.frames, k);
    }
  }

  lemma {:induction false} MissingSplit(f: seq<Slot>, a: int, b: int, c: int)
    requires 1 <= a <= b + 1 <= c + 1 && c <= |f|
    ensures Missing(f, a, c) == Missing(f, a, b) + Missing(f, b + 1, c)
    decreases b - a
  {
    if a <= b {
      MissingSplit(f, a + 1, b, c);
    }
  }

  /** Two consecutive ranges load as their union does. */
  lemma LoadRangeCompose(p: Preloader, a: int, b: int, c: int)
    requires WellFormed(p) && 1 <= a <= b + 1 <= c + 1 && c <= p.cfg.frameCount
    ensures LoadRange(LoadRange(p, a, b), b + 1, c) == LoadRange(p, a, c)
  {
    if !p.disposed {
      var f := p.frames;
      var g := Fill(f, a, b);
      assert forall j | b <= j < c :: g[j] == f[j];
      MissingAgree(g, f, b + 1, c);
      MissingSplit(f, a, b, c);
      FillCompose(f, a, b, c);
      var m1, m2 := Missing(f, a, b), Missing(g, b + 1, c);
      assert m1 + m2 == Missing(f, a, c);
      AppendAssoc(p.requests, m1, m2);
    }
  }

  /** Regrouping of log appends, stated once so that proofs about consecutive runs can
      name the exact grouping they need. */
  lemma AppendAssoc(a: seq<int>, b: seq<int>, c: seq<int>)
    ensures a + b + c == a + (b + c)
  {
  }

  lemma FillCompose(f: seq<Slot>, a: int, b: int, c: int)
    requires a <= b + 1 <= c + 1
    ensures Fill(Fill(f, a, b), b + 1, c) == Fill(f, a, c)
  {
    var g := Fill(f, a, b);
    forall j | 0 <= j < |f| ensures Fill(g, b + 1, c)[j] == Fill(f, a, c)[j] {
    }
  }

  // ---- the public operations ----

  /** The last frame of the eager burst of `start`. */
  function EagerEnd(cfg: Config): int {
    Min(cfg.frameCount, Max(cfg.eagerCount, 0))
  }

  /** The last frame `start` loads at once: the eager burst plus one batch. */
  function StartEnd(cfg: Config): int {
    Min(cfg.frameCount, EagerEnd(cfg) + Max(cfg.batchSize, 0))
  }

  /** `start` on a live, never-started preloader loads `1..StartEnd` at once and arms
      the timer iff frames remain. */
  lemma StartEffect(p: Preloader)
    requires Valid(p) && !p.started && !p.disposed
    ensures Start(p) == LoadRange(p, 1, StartEnd(p.cfg)).(started := true, nextFrame := StartEnd(p.cfg) + 1,
                                                          timerPending := StartEnd(p.cfg) < p.cfg.frameCount)
  {
    var n := p.cfg.frameCount;
    var eager := EagerEnd(p.cfg);
    var q' := EagerLoop(p.(started := true), Min(n, p.cfg.eagerCount));
    assert q' == LoadRange(p, 1, eager).(started := true, nextFrame := eager + 1) by {
      EagerPhase(p);
    }
    if eager + 1 <= n {
      assert Start(p) == LoadBatch(q');
      BatchPhase(p, eager, StartEnd(p.cfg));
    } else {
      assert Start(p) == q';
    }
  }

  /** The requests `start` makes: first the eager frames `1..L` in ascending order,
      then the batch `L+1..M`. */
  lemma StartOrder(p: Preloader)
    requires Valid(p) && !p.started && !p.disposed
    ensures var eager := EagerEnd(p.cfg); var m := StartEnd(p.cfg);
      Start(p).requests == p.requests + Missing(p.frames, 1, eager) + Missing(p.frames, eager + 1, m)
  {
    var eager := EagerEnd(p.cfg);
    var m := StartEnd(p.cfg);
    StartEffect(p);
    MissingSplit(p.frames, 1, eager, m);
    AppendAssoc(p.requests, Missing(p.frames, 1, eager), Missing(p.frames, eager + 1, m));
  }

  /** The eager burst of `start` loads frames `1..EagerEnd`. */
  lemma EagerPhase(p: Preloader)
    requires Valid(p) && !p.started && !p.disposed
    ensures EagerLoop(p.(started := true), Min(p.cfg.frameCount, p.cfg.eagerCount))
      == LoadRange(p, 1, EagerEnd(p.cfg)).(started := true, nextFrame := EagerEnd(p.cfg) + 1)
  {
    var limit := Min(p.cfg.frameCount, p.cfg.eagerCount);
    if limit < 1 {
      assert Fill(p.frames, 1, limit) == p.frames;
      assert Fill(p.frames, 1, 0) == p.frames;
    }
  }

  /** The batch `start` runs right after the eager burst loads up to frame `m`. */
  lemma BatchPhase(p: Preloader, eager: int, m: int)
    requires Valid(p) && !p.disposed && 0 <= eager < p.cfg.frameCount
    requires m == Min(p.cfg.frameCount, eager + Max(p.cfg.batchSize, 0))
    ensures LoadBatch(LoadRange(p, 1, eager).(started := true, nextFrame := eager + 1))
      == LoadRange(p, 1, m).(started := true, nextFrame := m + 1, timerPending := m < p.cfg.frameCount)
  {
    var x := LoadRange(p, 1, eager);
    assert LoadRange(x.(started := true, nextFrame := eager + 1), eager + 1, m)
      == LoadRange(x, eager + 1, m).(started := true, nextFrame := eager + 1);
    LoadRangeCompose(p, 1, eager, m);
  }

  /** From a fresh preloader, `start` requests exactly `1..StartEnd`, in ascending order. */
  lemma StartFresh(cfg: Config)
    requires cfg.frameCount >= 1
    ensures var m := StartEnd(cfg);
      var r := Start(Create(cfg));
      && r.requests == Range(1, m)
      && r.nextFrame == m + 1
      && (forall k :: Requested(r.frames, k) <==> 1 <= k <= m)
      && (r.timerPending <==> m < cfg.frameCount)
  {
    var p := Create(cfg);
    StartEffect(p);
    FreshLoad(p, StartEnd(cfg));
  }

  /** Loading `1..m` into a preloader with no images requests exactly those frames. */
  lemma FreshLoad(p: Preloader, m: int)
    requires WellFormed(p) && !p.disposed && p.requests == [] && 0 <= m <= p.cfg.frameCount
    requires forall j | 0 <= j < |p.frames| :: p.frames[j] == Empty
    ensures LoadRange(p, 1, m).requests == Range(1, m)
    ensures forall k :: Requested(LoadRange(p, 1, m).frames, k) <==> 1 <= k <= m
  {
    MissingOfFresh(p.frames, 1, m);
    FillRequested(p.frames, 1, m);
  }

  lemma {:induction false} MissingOfFresh(f: seq<Slot>, lo: int, hi: int)
    requires 1 <= lo && hi <= |f|
    requires forall j | 0 <= j < |f| :: f[j] == Empty
    ensures Missing(f, lo, hi) == Range(lo, hi)
    decreases hi - lo
  {
    if lo <= hi {
      MissingOfFresh(f, lo + 1, hi);
    }
  }

  lemma StartValid(p: Preloader)
    requires Valid(p)
    ensures Valid(Start(p)) && Grows(p, Start(p))
  {
    if !p.started && !p.disposed {
      var n := p.cfg.frameCount;
      var m := StartEnd(p.cfg);
      var r := LoadRange(p, 1, m + 1 - 1).(started := true, nextFrame := m + 1, timerPending := m + 1 <= n);
      assert Start(p) == r by {
        StartEffect(p);
      }
      AdvanceValid(p, 1, m + 1);
    } else {
      assert Start(p) == p;
    }
  }

  /** A second `start` does nothing. */
  lemma StartIdempotent(p: Preloader)
    requires WellFormed(p)
    ensures Start(Start(p)) == Start(p)
  {
  }

  /** `loadBatch` on a live preloader: the cursor advances by at most `batchSize` and
      never past `frameCount+1`, the frames it passes are requested in ascending order,
      and another tick is scheduled iff frames remain. */
  lemma LoadBatchStep(p: Preloader)
    requires Valid(p) && !p.disposed
    ensures var r := LoadBatch(p);
      && p.nextFrame <= r.nextFrame <= p.cfg.frameCount + 1
      && r.nextFrame - p.nextFrame <= Max(p.cfg.batchSize, 0)
      && (p.cfg.batchSize >= 1 && p.nextFrame <= p.cfg.frameCount ==> r.nextFrame > p.nextFrame)
      && (r.timerPending <==> r.nextFrame <= p.cfg.frameCount)
      && (exists added :: r.requests == p.requests + added && Increasing(added)
            && forall k | k in added :: p.nextFrame <= k < r.nextFrame)
  {
    var stop := Min(p.cfg.frameCount + 1, p.nextFrame + Max(p.cfg.batchSize, 0));
    var added := Missing(p.frames, p.nextFrame, stop - 1);
    MissingSpec(p.frames, p.nextFrame, stop - 1);
    assert LoadBatch(p).requests == p.requests + added;
  }

  /** A firing timer runs one batch from the cursor and re-arms iff frames remain. */
  lemma TickEffect(p: Preloader)
    requires Valid(p) && p.timerPending
    ensures var stop := Min(p.cfg.frameCount + 1, p.nextFrame + Max(p.cfg.batchSize, 0));
      Tick(p) == LoadRange(p, p.nextFrame, stop - 1).(nextFrame := stop, timerPending := stop <= p.cfg.frameCount)
  {
    var p' := p.(timerPending := false);
    var stop := Min(p.cfg.frameCount + 1, p.nextFrame + Max(p.cfg.batchSize, 0));
    assert LoadRange(p', p.nextFrame, stop - 1) == LoadRange(p, p.nextFrame, stop - 1).(timerPending := false);
  }

  lemma TickValid(p: Preloader)
    requires Valid(p)
    ensures Valid(Tick(p)) && Grows(p, Tick(p))
  {
    if p.timerPending {
      var stop := Min(p.cfg.frameCount + 1, p.nextFrame + Max(p.cfg.batchSize, 0));
      var r := LoadRange(p, p.nextFrame, stop - 1).(started := true, nextFrame := stop,
                                                    timerPending := stop <= p.cfg.frameCount);
      assert Tick(p) == r by {
        TickEffect(p);
      }
      AdvanceValid(p, p.nextFrame, stop);
    } else {
      assert Tick(p) == p;
    }
  }

  lemma WarmValid(p: Preloader, index: int, radius: int)
    requires Valid(p)
    ensures Valid(Warm(p, index, radius)) && Grows(p, Warm(p, index, radius))
  {
    var n := p.cfg.frameCount;
    LoadRangeValid(p, Clamp(index - radius, 1, n), Clamp(index + radius, 1, n));
  }

  /** `warm(index, radius)` requests every empty slot of the clamped window, in ascending
      order, and leaves every slot outside the window as it was. */
  lemma WarmWindow(p: Preloader, index: int, radius: int)
    requires Valid(p) && !p.disposed
    ensures var n := p.cfg.frameCount;
      var lo := Clamp(index - radius, 1, n);
      var hi := Clamp(index + radius, 1, n);
      var r := Warm(p, index, radius);
      && (forall k | 1 <= k <= n :: Requested(r.frames, k) <==> Requested(p.frames, k) || lo <= k <= hi)
      && (forall j | 0 <= j < n && !(lo <= j + 1 <= hi) :: r.frames[j] == p.frames[j])
      && r.requests == p.requests + Missing(p.frames, lo, hi)
      && r.nextFrame == p.nextFrame && r.timerPending == p.timerPending
  {
    var n := p.cfg.frameCount;
    LoadRangeValid(p, Clamp(index - radius, 1, n), Clamp(index + radius, 1, n));
  }

  /** A negative radius that empties the clamped window changes nothing. */
  lemma WarmEmptyWindow(p: Preloader, index: int, radius: int)
    requires WellFormed(p)
    requires Clamp(index - radius, 1, p.cfg.frameCount) > Clamp(index + radius, 1, p.cfg.frameCount)
    ensures radius < 0
    ensures Warm(p, index, radius) == p
  {
    var n := p.cfg.frameCount;
    assert Fill(p.frames, Clamp(index - radius, 1, n), Clamp(index + radius, 1, n)) == p.frames;
  }

  /** `warm` is not the same as `warm` at the clamped index: near the ends the window is
      clamped after the radius is applied, so `warm(0, 2)` loads frames 1 and 2 while
      `warm(1, 2)` also loads frame 3. */
  lemma WarmClampsAfterRadius(cfg: Config)
    requires cfg.frameCount >= 3
    ensures var p := Create(cfg);
      && Warm(p, 0, DefaultRadius).requests == [1, 2]
      && Warm(p, 1, DefaultRadius).requests == [1, 2, 3]
  {
    var p := Create(cfg);
    MissingOfFresh(p.frames, 1, 2);
    MissingOfFresh(p.frames, 1, 3);
  }

  lemma FrameLoadedValid(p: Preloader, frame: int)
    requires Valid(p)
    ensures Valid(FrameLoaded(p, frame)) && Grows(p, FrameLoaded(p, frame))
  {
  }

  lemma StepValid(p: Preloader, e: Event)
    requires Valid(p)
    ensures Valid(Step(p, e)) && Grows(p, Step(p, e))
    ensures !e.ImageLoaded? ==> Step(p, e).notified == p.notified
  {
    match e
    case StartCall => StartValid(p);
    case WarmCall(i, r) => WarmValid(p, i, r);
    case DisposeCall =>
    case TimerFired => TickValid(p);
    case ImageLoaded(k) => FrameLoadedValid(p, k);
  }

  lemma GrowsTrans(p: Preloader, q: Preloader, r: Preloader)
    requires Grows(p, q) && Grows(q, r)
    ensures Grows(p, r)
  {
  }

  /** Any interleaving of events keeps the invariant; slots are write-once and the
      logs only grow. */
  lemma {:induction false} RunValid(p: Preloader, es: seq<Event>)
    requires Valid(p)
    ensures Valid(Run(p, es)) && Grows(p, Run(p, es))
    decreases |es|
  {
    if es != [] {
      var q := Step(p, es[0]);
      StepValid(p, es[0]);
      RunValid(q, es[1..]);
      GrowsTrans(p, q, Run(q, es[1..]));
    }
  }

  /** Over any history, every frame is requested at most once and only frames
      `1..frameCount` are requested; `onFrameLoad` fires at most once per frame, and
      only for a requested one. */
  lemma AtMostOnce(cfg: Config, es: seq<Event>)
    requires cfg.frameCount >= 1
    ensures var r := Run(Create(cfg), es);
      && NoDup(r.requests)
      && (forall k | k in r.requests :: 1 <= k <= cfg.frameCount)
      && NoDup(r.notified)
      && (forall k | k in r.notified :: k in r.requests)
  {
    RunValid(Create(cfg), es);
  }

  /** `getFrame` and `loadFrame` act exactly as at the clamped index. */
  lemma ClampedAccess(p: Preloader, index: int)
    requires Valid(p)
    ensures var c := Clamp(index, 1, p.cfg.frameCount);
      && GetFrame(p, index) == GetFrame(p, c)
      && LoadFrame(p, index) == LoadFrame(p, c)
  {
  }

  /** `getFrame` of a frame nobody requested is absent. */
  lemma GetFrameNeverLoaded(p: Preloader, k: int)
    requires Valid(p) && 1 <= k <= p.cfg.frameCount && k !in p.requests
    ensures GetFrame(p, k) == Empty
  {
  }

  // ---- dispose ----

  lemma DisposeIdempotent(p: Preloader)
    ensures Dispose(Dispose(p)) == Dispose(p)
  {
  }

  /** Once disposed, no event changes the slots, the cursor or the request log, and no
      tick is scheduled. */
  lemma DisposedStep(p: Preloader, e: Event)
    requires Valid(p) && p.disposed
    ensures var r := Step(p, e);
      && r.frames == p.frames && r.nextFrame == p.nextFrame && r.requests == p.requests
      && r.disposed && !r.timerPending && r.started == p.started
  {
  }

  lemma {:induction false} DisposedRun(p: Preloader, es: seq<Event>)
    requires Valid(p) && p.disposed
    ensures var r := Run(p, es);
      && r.frames == p.frames && r.nextFrame == p.nextFrame && r.requests == p.requests
      && r.disposed && !r.timerPending
    decreases |es|
  {
    if es != [] {
      DisposedStep(p, es[0]);
      StepValid(p, es[0]);
      DisposedRun(Step(p, es[0]), es[1..]);
    }
  }

  // ---- background fill ----

  /** The timer firings that `left` remaining frames need: one per started batch. */
  function TicksFor(left: int, b: int): nat
    requires b >= 1
    decreases left
  {
    if left <= 0 then 0 else 1 + TicksFor(left - b, b)
  }

  /** The firings the background fill still needs. */
  function TicksNeeded(p: Preloader): nat
    requires WellFormed(p) && p.cfg.batchSize >= 1
  {
    TicksFor(p.cfg.frameCount + 1 - p.nextFrame, p.cfg.batchSize)
  }

  /** The count is `ceil(left / batchSize)`. */
  lemma {:induction false} TicksForIsCeil(left: nat, b: int)
    requires b >= 1
    ensures TicksFor(left, b) == (left + b - 1) / b
    decreases left
  {
    if left == 0 {
      QuotientIs(b - 1, b, 0);
    } else if left <= b {
      assert TicksFor(left - b, b) == 0;
      QuotientIs(left + b - 1, b, 1);
    } else {
      TicksForIsCeil(left - b, b);
      DivStep(left - 1, b);
    }
  }

  lemma DivStep(x: int, b: int)
    requires x >= 0 && b >= 1
    ensures (x + b) / b == x / b + 1
  {
    var k := (x + b) / b - x / b - 1;
    assert b * k == x % b - (x + b) % b;
  }

  /** With `batchSize >= 1` and no dispose, `TicksNeeded` timer firings after `start`
      bring the cursor to `frameCount+1` with every frame requested and no tick left. */
  lemma {:induction false} EventuallyComplete(p: Preloader)
    requires Valid(p) && p.started && !p.disposed && p.cfg.batchSize >= 1
    ensures var r := Ticks(p, TicksNeeded(p));
      && Valid(r)
      && r.nextFrame == p.cfg.frameCount + 1
      && !r.timerPending
      && (forall k | 1 <= k <= p.cfg.frameCount :: Requested(r.frames, k))
    decreases p.cfg.frameCount + 1 - p.nextFrame
  {
    if p.nextFrame <= p.cfg.frameCount {
      var q := Tick(p);
      TickProgress(p);
      EventuallyComplete(q);
      assert Ticks(p, TicksNeeded(p)) == Ticks(q, TicksNeeded(q));
    }
  }

  /** One firing on the way: the invariant holds and one fewer tick is needed. */
  lemma TickProgress(p: Preloader)
    requires Valid(p) && p.started && !p.disposed && p.cfg.batchSize >= 1
    requires p.nextFrame <= p.cfg.frameCount
    ensures var q := Tick(p);
      && Valid(q) && q.started && !q.disposed && q.cfg == p.cfg
      && q.nextFrame > p.nextFrame
      && TicksNeeded(q) + 1 == TicksNeeded(p)
  {
    var n := p.cfg.frameCount;
    var b := p.cfg.batchSize;
    var left := n + 1 - p.nextFrame;
    var stop := Min(n + 1, p.nextFrame + b);
    var q := Tick(p);
    TickEffect(p);
    TickValid(p);
    assert q.nextFrame == stop;
    assert TicksFor(left - b, b) == TicksFor(n + 1 - stop, b);
  }

  /** With `batchSize <= 0` a firing timer loads nothing and re-arms itself: the
      background fill never ends. */
  lemma TickWithoutProgress(p: Preloader)
    requires Valid(p) && p.timerPending && p.cfg.batchSize <= 0
    ensures Tick(p) == p
  {
    assert Fill(p.frames, p.nextFrame, p.nextFrame - 1) == p.frames;
  }

  // ---- concrete histories ----

  /** Five frames, two eager, batches of two: `start` issues 1, 2 (eager) and 3, 4 (its
      synchronous batch) and arms the timer; the one tick issues 5 and stops. */
  lemma FiveFrameScenario(cfg: Config)
    requires cfg == Config(5, 2, 2)
    ensures var p := Start(Create(cfg));
      && p.requests == [1, 2, 3, 4] && p.timerPending
      && Tick(p).requests == [1, 2, 3, 4, 5] && !Tick(p).timerPending
  {
    StartFresh(cfg);
    StartValid(Create(cfg));
    var p := Start(Create(cfg));
    assert p.requests == [1, 2, 3, 4];
    TickEffect(p);
    assert !Requested(p.frames, 5);
    assert Missing(p.frames, 5, 5) == [5];
  }

  /** With the defaults and 192 frames, `start` issues frames 1..20 (12 eager and
      one batch of 8) and 22 further ticks finish the fill. */
  lemma DefaultScenario(cfg: Config)
    requires cfg == DefaultConfig(192)
    ensures var p := Start(Create(cfg));
      && p.requests == Range(1, 20)
      && TicksNeeded(p) == 22
      && Ticks(p, TicksNeeded(p)).nextFrame == 193
  {
    assert cfg.frameCount == 192 && cfg.eagerCount == 12 && cfg.batchSize == 8;
    assert EagerEnd(cfg) == 12;
    assert StartEnd(cfg) == 20;
    StartFresh(cfg);
    var p := Start(Create(cfg));
    assert p.nextFrame == 21;
    TicksForIsCeil(192 + 1 - 21, 8);
    QuotientIs(192 + 1 - 21 + 8 - 1, 8, 22);
    StartCompletes(cfg);
  }

  lemma {:induction false} QuotientIs(x: int, b: int, q: nat)
    requires b >= 1 && b * q <= x < b * q + b
    ensures x / b == q
  {
    if q == 0 {
      assert x == b * 0 + x;
    } else {
      QuotientIs(x - b, b, q - 1);
      DivStep(x - b, b);
    }
  }

  /** From a fresh start, the number of ticks `TicksNeeded` reports is enough. */
  lemma StartCompletes(cfg: Config)
    requires cfg.frameCount >= 1 && cfg.batchSize >= 1
    ensures var p := Start(Create(cfg));
      Ticks(p, TicksNeeded(p)).nextFrame == cfg.frameCount + 1
  {
    StartValid(Create(cfg));
    EventuallyComplete(Start(Create(cfg)));
  }
}

=== FILE: js_text.dfy ===
/**
 The few ECMAScript string primitives the contact form relies on: the whitespace
 class `\s` of regular expressions, `String.prototype.trim`, and `length`, which
 counts UTF-16 code units rather than characters.
 */
module JsText {

  /** ECMAScript WhiteSpace and LineTerminator: what `\s` matches and what `trim`
      removes. */
  predicate IsWs(c: char) {
    || c == '\t' || c == '\n' || c == '\U{000B}' || c == '\U{000C}' || c == '\r'
    || c == ' ' || c == '\U{00A0}' || c == '\U{1680}'
    || ('\U{2000}' <= c <= '\U{200A}')
    || c == '\U{2028}' || c == '\U{2029}' || c == '\U{202F}' || c == '\U{205F}'
    || c == '\U{3000}' || c == '\U{FEFF}'
  }

  predicate Blank(s: string) {
    forall i | 0 <= i < |s| :: IsWs(s[i])
  }

  /** Where the trim of `s[from..]` starts: the first non-whitespace position at or
      after `from`, or `|s|`. */
  function TrimStartAt(s: string, from: nat): (a: nat)
    requires from <= |s|
    ensures from <= a <= |s|
    ensures forall i | from <= i < a :: IsWs(s[i])
    ensures a < |s| ==> !IsWs(s[a])
    decreases |s| - from
  {
    if from < |s| && IsWs(s[from]) then TrimStartAt(s, from + 1) else from
  }

  /** Where the trim of `s[lo..upto]` ends: one past the last non-whitespace position
      in that range, or `lo`. */
  function TrimEndAt(s: string, lo: nat, upto: nat): (b: nat)
    requires lo <= upto <= |s|
    ensures lo <= b <= upto
    ensures forall i | b <= i < upto :: IsWs(s[i])
    ensures b > lo ==> !IsWs(s[b - 1])
    decreases upto
  {
    if upto > lo && IsWs(s[upto - 1]) then TrimEndAt(s, lo, upto - 1) else upto
  }

  /** `String.prototype.trim`: what is left of `s` without its leading and trailing
      whitespace. */
  function Trim(s: string): (r: string)
    ensures |r| <= |s|
    ensures r == [] || (!IsWs(r[0]) && !IsWs(r[|r| - 1]))
  {
    var a := TrimStartAt(s, 0);
    s[a..TrimEndAt(s, a, |s|)]
  }

  /** The trim of `s` is the infix left after removing a blank prefix and a blank
      suffix. */
  lemma TrimShape(s: string)
    ensures var a := TrimStartAt(s, 0); var r := Trim(s);
      && a + |r| <= |s|
      && r == s[a..a + |r|]
      && Blank(s[..a]) && Blank(s[a + |r|..])
  {
  }

  /** A field trims to the empty string exactly when it is all whitespace. */
  lemma TrimEmptyIffBlank(s: string)
    ensures Trim(s) == [] <==> Blank(s)
  {
    var a := TrimStartAt(s, 0);
    if Trim(s) != [] {
      assert s[a] == Trim(s)[0];
    }
  }

  /** A string that neither starts nor ends with whitespace is its own trim. */
  lemma TrimUnbordered(s: string)
    requires |s| > 0 && !IsWs(s[0]) && !IsWs(s[|s| - 1])
    ensures Trim(s) == s
  {
  }

  /** The UTF-16 code units of one character. */
  function Utf16Units(c: char): nat {
    if c as int >= 0x1_0000 then 2 else 1
  }

  /** `s.length` in JavaScript: characters outside the Basic Multilingual Plane count
      twice. */
  function Utf16Length(s: string): (n: nat)
    ensures |s| <= n <= 2 * |s|
    ensures (forall i | 0 <= i < |s| :: s[i] as int < 0x1_0000) ==> n == |s|
    decreases |s|
  {
    if s == [] then 0 else Utf16Units(s[0]) + Utf16Length(s[1..])
  }
}
